=== FILE: README.md ===
# azaws login core, modelled in Dafny

azaws logs a user into AWS through Azure AD SAML federation. It renders a
SAML AuthnRequest, opens the Azure AD login page in Chrome, and watches the
browser's devtools network events. When the browser POSTs the SAML response
to `https://signin.aws.amazon.com/saml`, azaws takes the `SAMLResponse` form
value and picks a role/principal ARN pair out of the assertion. It then
exchanges the assertion for temporary credentials with STS
`AssumeRoleWithSAML` and writes them to the profile's section of
`~/.aws/credentials`. The profile's tenant id, app id and session duration
are read from `~/.aws/config`.

This project models that decision logic as pure Dafny functions and proves
what each step promises:

- `go_errors.dfy` (`GoErrors`): Go errors as `Option<Error>`, with nil as
  `None`. `Wrap` mirrors pkg/errors: wrapping nil gives nil.
- `go_text.dfy` (`GoText`): the Go library behaviour the core depends on:
  - `strings.Split`, and `strings.Join` as its partner;
  - `strings.HasSuffix`;
  - `fmt.Sprint` of an int, and the decimal case of `strconv.ParseInt`;
  - int64 wrap-around.
- `saml.dfy` (`Saml`): `parseArn`'s role selection, and the AuthnRequest
  template of `createSAMLRequest`. The template is checked against a reader
  that recovers the ID, IssueInstant, AssertionConsumerServiceURL and Issuer.
- `aws.dfy` (`Aws`): the STS input, and the config and credentials files.
  Each INI file is a map from section name to key to value.
- `interceptor.dfy` (`Interceptor`): the event loop in `run`. The channel is
  the finite sequence of what the loop's `select` observes: a delivered
  message, or `Cancel` when the context is done.
- `pipeline.dfy` (`Pipeline`): `run` after flag parsing, and `assumeRole`.
  Every external collaborator is an input.

Three behaviours of the code are modelled as written:

- `parseArn` does not fail when no role attribute is found. It returns two
  empty strings and a nil error, because `errors.Wrapf` of the nil `err` in
  scope is nil. `assumeRole` therefore goes on to call STS with empty ARNs
  (`Pipeline.RoleNotFoundStillCallsSts`). The "could not be found" message
  built at saml.go:64 is never returned.
- A form without `SAMLResponse` ends the event loop with a nil error, for
  the same reason. The run then succeeds without writing anything
  (`Pipeline.MissingSamlResponseSucceedsSilently`).
- When no attribute value's role ends with the requested name, the pair of
  the attribute's last value is used (`Saml.NoSuffixMatchTakesLast`).

The credentials are written under the keys `aws_access_key_id`,
`aws_secret_access_key`, `aws_session_token` and `aws_session_expiration`.

## Model

| member | source | states |
|---|---|---|
| `Saml.FirstRoleAttribute` | saml.go:49-52 | the attribute scanned is the first whose name is one of the two role-claim names; none before it has such a name, and None means no attribute has one |
| `Saml.StopIndex` | saml.go:53-60 | the inner loop stops at the first value whose role field ends with the role name, or else at the last value; every earlier value fails the suffix test |
| `Saml.ParseArn` | saml.go:43-67 | a parse failure yields empty ARNs and that error, wrapped; a parsed response never yields an error, even when no role is found; the role and principal are both empty or both non-empty |
| `Saml.NoRoleAttributeNotFound` | saml.go:49-65 | with no role-claim attribute the result is ("", "", nil) |
| `Saml.EmptyRoleAttributeNotFound` | saml.go:53-65 | a role-claim attribute without values also gives ("", "", nil) |
| `Saml.FirstSuffixMatchWins` | saml.go:53-59 | if some value's role field ends with the role name, the first such value's role and principal are the result; if one of them is empty the result is ("", "", nil) |
| `Saml.NoSuffixMatchTakesLast` | saml.go:53-65 | if no value's role field has the suffix, the last value's pair is the result, or ("", "", nil) if one of its fields is empty |
| `Saml.FoundPairComesFromFirstRoleAttribute` | saml.go:49-66 | a non-empty result has a non-empty principal too, and both are split fields 0 and 1 of a value of the first role-claim attribute |
| `Saml.OtherAttributesIgnored` | saml.go:49-52 | inserting an attribute with any other name anywhere in the list leaves the result unchanged |
| `Saml.LaterAttributesIgnored` | saml.go:49-62 | attributes appended after the first role-claim attribute, role claims included, never change the result |
| `Saml.ValueFields` | saml.go:54-56 | a value `role,principal[,extra]` yields exactly that role and principal; extra comma fields are ignored |
| `Saml.RenderedRequestFields` | saml.go:21-25 | the rendered AuthnRequest reads back with ID "id"+uuid, the given IssueInstant, the fixed AssertionConsumerServiceURL and the app id as Issuer, when no value contains its closing delimiter |
| `Saml.RenderAuthnRequest` | saml.go:21-25 | the filled-in request begins with the `<samlp:AuthnRequest` opening up to `ID="` and ends with the Issuer close, the NameIDPolicy and the closing tag, whatever the values |
| `Saml.CreateSAMLRequest` | saml.go:16-41 | success exactly when uuid generation and deflate of the rendered template both succeed; the result is the base64 of that deflated text, and a uuid failure is reported wrapped |
| `GoText.Split` | saml.go:54 | `strings.Split` gives at least one field, more than one exactly when a comma occurs, fields without commas, and joining them back gives the input |
| `GoText.SplitJoin` | saml.go:54 | splitting a comma-free list of fields joined by commas gives the fields back |
| `GoText.HasSuffixIff` | saml.go:57 | `strings.HasSuffix(s, suffix)` holds exactly when `s` is some text followed by `suffix` |
| `GoText.Itoa` | aws.go:65 | `fmt.Sprint` of an int is a decimal numeral with no leading zero, preceded by "-" exactly when the int is negative |
| `GoText.ParseIntItoa` | aws.go:65 | reading back the decimal text `fmt.Sprint` writes for an int gives that int |
| `GoText.ParseInt` | aws.go:47 | a successful parse comes only from the decimal text of its value, optionally with a "+" sign, or from "-0" |
| `GoText.ParseIntPlusItoa` | aws.go:47 | the decimal text of a non-negative int with a "+" in front reads as that int |
| `GoText.ParseIntMinusZero` | aws.go:47 | "-0" reads as zero |
| `Aws.DurationSeconds` | aws.go:21 | the duration is hours × 3600 in int64, wrapped around on overflow and exact when the product fits |
| `Aws.BuildAssumeRoleInput` | aws.go:20-25 | role, principal and assertion reach the STS input unchanged, and the duration is hours × 3600 when that fits in int64 |
| `Aws.AssumeRoleWithSAML` | aws.go:16-31 | the result succeeds exactly when the STS call does, returns its credentials unchanged, and keeps the cause of its error |
| `Aws.ConfigSectionInjective` | aws.go:42-44 | "default" maps to section "default", every other profile to "profile <name>", and two profiles never share a section |
| `Aws.MustString` | aws.go:45-46 | go-ini's `MustString` gives the value or the default; the result is empty only when both are, and with default "" it is the value itself |
| `Aws.MustInt` | aws.go:47 | go-ini's `MustInt` reads the decimal text of any int as that int, the same text after a "+" for a non-negative int, and "-0" as 0; every other decimal-only reading fails and gives the default (base-0 prefixes and `_` separators are not read) |
| `Aws.ReadConfig` | aws.go:42-47 | tenant and app id are the stored values of the profile's config section, "" when absent; the duration is the stored value read as an int, or 1 when it does not read |
| `Aws.GetProfileConfig` | aws.go:33-49 | an unfindable or unreadable file gives ("", "", -1) and an error with that cause; a loaded file gives no error and the tenant, app and duration its profile section holds, as `ReadConfig` reads them |
| `Aws.ReadConfigDefaults` | aws.go:45-48 | missing keys read as tenant "", app "" and duration 1, and `getProfileConfig` returns those with no error |
| `Aws.WriteConfig` | aws.go:60-65 | only the three azure_* keys of the profile's config section may change; every other section and key stays as it was |
| `Aws.SetProfileConfig` | aws.go:51-67 | a loaded file is saved with the three keys written; otherwise nothing is saved and the error has the load failure as its cause |
| `Aws.ConfigRoundTrip` | aws.go:33-66 | reading a profile's config after writing it returns the written tenant, app and duration |
| `Aws.SetThenGetProfileConfig` | aws.go:33-67 | `getProfileConfig` on the file `setProfileConfig` saved returns the written values and no error |
| `Aws.WriteConfigOtherProfile` | aws.go:42-65 | writing one profile's config leaves every other profile's config reading the same |
| `Aws.WriteCredentials` | aws.go:78-81 | the four aws_* keys hold the credentials in the section named by the bare profile name; nothing else changes |
| `Aws.SetProfileCredentials` | aws.go:69-83 | a loaded file is saved with the credentials written; otherwise nothing is saved and the error has the load failure as its cause |
| `Aws.CredentialsOverwrite` | aws.go:78-81 | writing credentials twice for one profile gives the same store as writing only the second set |
| `Interceptor.InterceptFrom` | main.go:128-145 | the loop stops at the first item that is a cancellation, an undecodable requestWillBeSent, or a requestWillBeSent to exactly the sign-in URL with post data and a post-data entry; every earlier item was another method or another request |
| `Interceptor.InterceptFirstStop` | main.go:131-145 | the outcome is fixed by the first item that is not skipped, whatever follows it |
| `Interceptor.NoLookahead` | main.go:142-162 | once the loop has stopped, appending later items does not change the outcome |
| `Interceptor.MatchesExactlySamlPosts` | main.go:142-145 | a decoded requestWillBeSent is the match exactly when it goes to `https://signin.aws.amazon.com/saml` with post data and at least one post-data entry; any other request is passed over |
| `Interceptor.DecodeFailureAborts` | main.go:138-141 | an undecodable requestWillBeSent ends the loop with its error, even if a matching request follows |
| `Interceptor.ExtractAssertion` | main.go:146-158 | only the first post-data entry is decoded; an assertion results exactly when decoding, form parsing and a non-empty SAMLResponse all succeed, and it is the first SAMLResponse value; a decoding or form-parsing failure stops with a non-nil error of that cause |
| `Interceptor.MissingSamlResponseIsNil` | main.go:154-157 | a missing or empty SAMLResponse stops the loop with a nil error |
| `Interceptor.EventLoop` | main.go:128-162 | cancellation returns the context error; a decode failure returns its error; after a match, an extracted assertion is passed to assumeRole and an extraction stop returns its error, and assumeRole is called with no other assertion |
| `Interceptor.CancelBeforeMatch` | main.go:131-133 | cancellation observed before a match ends the loop with the context error and without calling assumeRole |
| `Pipeline.AssumeRole` | main.go:172-183 | a parseArn error stops before STS; when parseArn succeeds, an STS success leads to `setProfileCredentials` with STS's credentials and an STS failure returns an error of that cause; credentials are saved only after parseArn and STS both succeed, and they are STS's credentials for exactly the parsed ARNs and the assertion |
| `Pipeline.RoleNotFoundStillCallsSts` | main.go:172-183 | with no role attribute, STS is called with empty role and principal ARNs and its answer decides the outcome |
| `Pipeline.LoginUrlDecodes` | main.go:120-121 | the login URL determines its tenant id (when it has no "/") and its escaped request |
| `Pipeline.Run` | main.go:85-126 | a config-read failure returns an error of that cause; every step before the event loop that fails returns a non-nil error with nothing written, except a missing role name; with a usable config, a missing role name exits with usage, and only it does; once the login page is open, the outcome is the event loop's |
| `Pipeline.HandleEvents` | main.go:128-169 | the run blocks exactly while the loop listens; an extraction stop returns nil or an error as the loop did; after an assertion, the run saves what assumeRole saved and fails exactly when assumeRole failed, with its cause; anything saved is STS's credentials for the parsed ARNs |
| `Pipeline.SavedOnlyAfterLogin` | main.go:85-183 | credentials are saved only when the loop was reached, a request matched, parseArn returned no error and STS succeeded, and what is saved is those credentials |
| `Pipeline.SuccessfulLoginSavesCredentials` | main.go:154-183 | when the matched request carries an assertion that parses, an STS success makes the run save STS's credentials for the parsed role pair and return the save's error; an STS failure returns an error of that cause with nothing saved |
| `Pipeline.BlockedMeansListening` | main.go:128-135 | a run that blocks reached the loop, and the loop is still waiting for an item |
| `Pipeline.UnconfiguredProfileStops` | main.go:89-91 | an empty tenant or app id ends the run with the configure error, before any browser or request step, and nothing is written |
| `Pipeline.CancelledRunWritesNothing` | main.go:131-133 | cancellation before a match ends the run with the wrapped context error and nothing written |
| `Pipeline.MissingSamlResponseSucceedsSilently` | main.go:154-157 | a matched request without a usable SAMLResponse ends the run with no error and nothing written |
| `Pipeline.WrittenCredentialsUseFirstAssertion` | main.go:142-162 | once a request has matched, later channel items do not change the run's outcome |

## Left out

- Chrome control through chromedp is not modelled: the allocator, `network.Enable` and `Navigate` are outcomes given as inputs.
- `devToolHandler` is not modelled. It starts a goroutine per batch of messages and feeds a shared channel. The model replaces the channel with one fixed order of observed items; the ordering between batches is not modelled.
- Signal handling is reduced to a `Cancel` item in the observed sequence.
- If the sequence runs out before a match or a cancellation, the run is `Blocked`, as the source waits forever.
- Go's `select` picks at random when a message and cancellation are both ready. The observed sequence fixes one such choice.
- The STS network call is a function from the input to credentials or an error. `session.Must` panicking on a bad session is not modelled.
- `saml.ParseEncodedResponse` (base64, XML and the assertion structure) is a function from the assertion to the attribute list or an error.
- uuid generation, `time.Now().Format(time.RFC3339)`, deflate at level 9, base64 encoding and decoding, `url.QueryEscape` and `url.ParseQuery` are inputs or functions given as inputs.
- `flate.NewWriter` failing is folded into the one deflate outcome; at level 9 it does not fail.
- File paths, `homedir.Dir`, `ini.Load` and `SaveTo` are not modelled. A file is loaded into a map, fails to load, or has no home directory, and saving is a function from the map to an error. The model assumes save then load gives the same map. go-ini's trimming and quoting of values that contain newlines or surrounding spaces are not modelled.
- `Credentials.Expiration.String()` is not modelled; the expiration is carried as its text.
- Flag parsing, `configure`, `prompt` and `promptInt` are terminal I/O and are not modelled. `configure`'s write is `Aws.SetProfileConfig`.
- `Aws.MustInt`, `GoText.ParseInt`, `Aws.ReadConfig`, `Aws.GetProfileConfig`: go-ini's `MustInt` calls `strconv.ParseInt` with base 0. The model reads only decimal text with an optional sign. Text with a `0x`, `0o` or `0b` prefix, a leading-zero octal numeral, or `_` digit separators reads as the default 1 in the model, but not in the source.
- `Saml.ParseArn`: a role value without a comma makes the source panic on `s[1]` when the loop reaches it. `ParseArn` makes this a precondition. `Pipeline.Run` returns `Panicked` in that case.
- `Aws.ReadConfig`, `Aws.WriteConfig`, `Aws.WriteConfigOtherProfile`, `Aws.ReadConfigDefaults`, `Aws.WriteCredentials`: go-ini child sections are not modelled. When a section name contains `.`, go-ini looks a missing key up in the parent section (the name up to the last `.`). `SetValue` then changes the parent's key. For a profile such as `a.b`, the source can therefore read `[profile a]`'s values and change them, which these members do not describe.
- `Aws.ReadConfig`, `Aws.ConfigRoundTrip`, `Aws.SetThenGetProfileConfig`: go-ini's `Key.String()`, which `MustString` and `MustInt` call, replaces each `%(other)s` in a value with the value of key `other` from the same section or from `DEFAULT`. The model reads the stored text as it is. A tenant id written as `%(azure_app_id)s`, for example, reads back in the source as the app id, so the round trips hold in the source only for values without such references.
- `Aws.WriteCredentials`, `Aws.CredentialsOverwrite`: go-ini names the section of the empty profile name `DEFAULT`, so profiles "" and "DEFAULT" share one credentials section in the source. The model keeps them apart.
- The `%s` values of error messages are kept in the message text. `errors.Wrapf`'s formatting and the stack traces pkg/errors records are not modelled.

=== FILE: aws.dfy ===
/** aws.go: the input of the STS AssumeRoleWithSAML call, and the profile
    configuration and credential files.

Both files are INI files handled by go-ini; each is modelled as the map it
denotes, section name to key to value. Loading and saving are outcomes given
as inputs (a load either yields the map or an error; a save is a function
from the map to an error), and the STS call is a function from the input to
credentials or an error. */
module Aws {
  import opened GoErrors
  import opened GoText

  // ---------------------------------------------------------------------------
  // AssumeRoleWithSAML

  /** The fields of `sts.AssumeRoleWithSAMLInput` the tool sets. */
  datatype AssumeRoleInput = AssumeRoleInput(durationSeconds: int64, roleArn: string,
                                             principalArn: string, samlAssertion: string)

  /** `*sts.Credentials`; the expiration is kept in the textual form
      `Expiration.String()` gives it. */
  datatype Credentials = Credentials(accessKeyId: string, secretAccessKey: string,
                                     sessionToken: string, expiration: string)

  const TwoTo64: int := 0x1_0000_0000_0000_0000

  /** `int64(durationHours) * 60 * 60`: two int64 multiplications, each of
      which wraps around on overflow. */
  function DurationSeconds(durationHours: int64): (seconds: int64)
    ensures seconds == WrapInt64(durationHours * 3600)
    ensures IsInt64(durationHours * 3600) ==> seconds == durationHours * 3600
  {
    var minutes := WrapInt64(durationHours * 60);
    WrapTwice(durationHours, minutes);
    WrapInt64(minutes * 60)
  }

  /** Wrapping is blind to multiples of 2^64. */
  lemma WrapShift(v: int, k: int)
    ensures WrapInt64(v + k * TwoTo64) == WrapInt64(v)
  {
    var a := v - Int64Min;
    var q := a / TwoTo64;
    var r := a % TwoTo64;
    assert a + k * TwoTo64 == (q + k) * TwoTo64 + r;
    DivModUnique(a + k * TwoTo64, q + k, r);
  }

  lemma DivModUnique(x: int, q: int, r: int)
    requires 0 <= r < TwoTo64 && x == q * TwoTo64 + r
    ensures x % TwoTo64 == r
  {
  }

  /** Wrapping the minutes before the second multiplication changes nothing. */
  lemma WrapTwice(hours: int, minutes: int64)
    requires minutes == WrapInt64(hours * 60)
    ensures WrapInt64(minutes * 60) == WrapInt64(hours * 3600)
  {
    var k := (minutes - hours * 60) / TwoTo64;
    assert minutes == hours * 60 + k * TwoTo64;
    assert minutes * 60 == hours * 3600 + (60 * k) * TwoTo64;
    WrapShift(hours * 3600, 60 * k);
  }

  /** The STS input `assumeRoleWithSAML` builds: role, principal and
      assertion are passed through unchanged, the duration is converted from
      hours to seconds. */
  function BuildAssumeRoleInput(roleArn: string, principalArn: string, assertion: string,
                                durationHours: int64): (input: AssumeRoleInput)
    ensures input.roleArn == roleArn && input.principalArn == principalArn
    ensures input.samlAssertion == assertion
    ensures IsInt64(durationHours * 3600) ==> input.durationSeconds == durationHours * 3600
  {
    AssumeRoleInput(DurationSeconds(durationHours), roleArn, principalArn, assertion)
  }

  /** `assumeRoleWithSAML`: the STS call's error is wrapped, its credentials
      are returned as they are. */
  function AssumeRoleWithSAML(roleArn: string, principalArn: string, assertion: string,
                              durationHours: int64, sts: AssumeRoleInput -> Result<Credentials>)
    : (r: Result<Credentials>)
    ensures var input := BuildAssumeRoleInput(roleArn, principalArn, assertion, durationHours);
      && (r.Ok? <==> sts(input).Ok?)
      && (r.Ok? ==> r == sts(input))
      && (r.Fail? ==> Cause(r.error) == Cause(sts(input).error))
  {
    var input := BuildAssumeRoleInput(roleArn, principalArn, assertion, durationHours);
    match sts(input)
    case Ok(credentials) => Ok(credentials)
    case Fail(e) => Fail(Wrapped("Failed to AssumeRoleWithSAMLWithContext", e))
  }

  // ---------------------------------------------------------------------------
  // INI stores

  type Section = map<string, string>

  /** An INI file: section name to key to value. */
  type Store = map<string, Section>

  /** A config or credentials file as `getAWSConfigFilePath` and `ini.Load`
      leave it. */
  datatype IniFile =
    | NoHomeDir(error: Error)
    | Unreadable(path: string, error: Error)
    | Loaded(store: Store)

  /** What a setter did: the store it handed to `SaveTo`, if it got that far,
      and the error it returned. */
  datatype StoreWrite = StoreWrite(saved: Option<Store>, err: Option<Error>)

  /** The keys of a section, empty when go-ini would create it on demand. */
  function SectionOf(store: Store, name: string): Section
  {
    if name in store then store[name] else map[]
  }

  /** The stored text of `cfg.Section(name).Key(key)`, "" for a key that is
      not there. go-ini's `String()` also expands `%(other)s` references to
      other keys; that expansion is not part of this model. */
  function Lookup(store: Store, name: string, key: string): string
  {
    var section := SectionOf(store, name);
    if key in section then section[key] else ""
  }

  /** `cfg.Section(name).Key(key).SetValue(value)`. */
  function SetKey(store: Store, name: string, key: string, value: string): (r: Store)
    ensures r.Keys == store.Keys + {name}
    ensures r[name] == SectionOf(store, name)[key := value]
    ensures forall other :: other in store && other != name ==> r[other] == store[other]
  {
    store[name := SectionOf(store, name)[key := value]]
  }

  /** `after` is `before` with at most the given keys of one section changed:
      no other section is touched, and no other key of that section. */
  predicate SameExcept(before: Store, after: Store, name: string, keys: set<string>)
  {
    && after.Keys == before.Keys + {name}
    && (forall other :: other in before && other != name ==> after[other] == before[other])
    && (forall k :: k in SectionOf(before, name) && k !in keys ==>
          k in SectionOf(after, name) && SectionOf(after, name)[k] == SectionOf(before, name)[k])
    && (forall k :: k in SectionOf(after, name) && k !in keys ==> k in SectionOf(before, name))
  }

  /** go-ini's `MustString(default)`: the value, or the default when it is empty. */
  function MustString(value: string, default: string): (r: string)
    ensures r == value || r == default
    ensures r == "" <==> value == "" && default == ""
    ensures default == "" ==> r == value
  {
    if value == "" then default else value
  }

  /** go-ini's `MustInt(default)`: the value read as an int, or the default
      when it does not parse. */
  function MustInt(value: string, default: int64): (r: int64)
    ensures r == default || value == Itoa(r) || value == "+" + Itoa(r) || value == "-0"
    ensures forall n: int64 {:trigger Itoa(n)} :: value == Itoa(n) ==> r == n
    ensures forall n: int64 {:trigger Itoa(n)} :: n >= 0 && value == "+" + Itoa(n) ==> r == n
    ensures value == "-0" ==> r == 0
    ensures (forall n: int64 {:trigger Itoa(n)} :: value != Itoa(n) && value != "+" + Itoa(n)) && value != "-0" ==>
      r == default
  {
    ParseIntAccepts();
    match ParseInt(value)
    case Some(v) => v
    case None => default
  }

  // ---------------------------------------------------------------------------
  // The config file

  const TenantIdKey: string := "azure_tenant_id"
  const AppIdKey: string := "azure_app_id"
  const DurationHoursKey: string := "azure_duration_hours"

  /** The three keys `setProfileConfig` writes. */
  function ConfigKeys(): set<string>
  {
    {TenantIdKey, AppIdKey, DurationHoursKey}
  }

  /** The config section of a profile: "default" stays as it is, every other
      profile lives in "profile <name>". */
  function ConfigSection(profile: string): (name: string)
    ensures name == "default" <==> profile == "default"
  {
    if profile != "default" then "profile " + profile else profile
  }

  /** Different profiles never share a config section. */
  lemma ConfigSectionInjective(p: string, q: string)
    requires ConfigSection(p) == ConfigSection(q)
    ensures p == q
  {
    if p != "default" && q != "default" {
      assert p == ConfigSection(p)[8..];
      assert q == ConfigSection(q)[8..];
    }
  }

  datatype ProfileConfig = ProfileConfig(tenantId: string, appId: string, durationHours: int64)

  /** The three values `getProfileConfig` reads from a loaded config file. */
  function ReadConfig(store: Store, profile: string): (r: ProfileConfig)
    ensures r.tenantId == Lookup(store, ConfigSection(profile), TenantIdKey)
    ensures r.appId == Lookup(store, ConfigSection(profile), AppIdKey)
    ensures var text := Lookup(store, ConfigSection(profile), DurationHoursKey);
      && (ParseInt(text).Some? ==> r.durationHours == ParseInt(text).value)
      && (ParseInt(text).None? ==> r.durationHours == 1)
  {
    var name := ConfigSection(profile);
    ProfileConfig(MustString(Lookup(store, name, TenantIdKey), ""),
                  MustString(Lookup(store, name, AppIdKey), ""),
                  MustInt(Lookup(store, name, DurationHoursKey), 1))
  }

  /** `getProfileConfig`'s results: tenant, app, duration and error. */
  datatype ConfigRead = ConfigRead(tenantId: string, appId: string, durationHours: int64, err: Option<Error>)

  /** `getProfileConfig`: ("", "", -1) and the wrapped error when the file
      cannot be found or read, otherwise the profile's values. */
  function GetProfileConfig(file: IniFile, profile: string): (r: ConfigRead)
    ensures r.err.Some? <==> !file.Loaded?
    ensures r.err.Some? ==> r.tenantId == "" && r.appId == "" && r.durationHours == -1
    ensures file.NoHomeDir? ==> Cause(r.err.value) == Cause(file.error)
    ensures file.Unreadable? ==> Cause(r.err.value) == Cause(file.error)
    ensures file.Loaded? ==>
      && var c := ReadConfig(file.store, profile);
      && r.tenantId == c.tenantId && r.appId == c.appId && r.durationHours == c.durationHours
  {
    match file
    case NoHomeDir(e) =>
      ConfigRead("", "", -1, Wrap(Wrap(Some(e), "Failed to get home directory"), "Failed to get AWS config file path"))
    case Unreadable(path, e) =>
      ConfigRead("", "", -1, Wrap(Some(e), "Failed to read file: " + path))
    case Loaded(store) =>
      var c := ReadConfig(store, profile);
      ConfigRead(c.tenantId, c.appId, c.durationHours, None)
  }

  /** A profile without the keys reads as no tenant, no app and one hour. */
  lemma ReadConfigDefaults(store: Store, profile: string)
    requires var section := SectionOf(store, ConfigSection(profile));
      TenantIdKey !in section && AppIdKey !in section && DurationHoursKey !in section
    ensures ReadConfig(store, profile) == ProfileConfig("", "", 1)
    ensures GetProfileConfig(Loaded(store), profile) == ConfigRead("", "", 1, None)
  {
  }

  /** The store `setProfileConfig` saves: the three keys of the profile's
      config section set, the duration written in decimal. */
  function WriteConfig(store: Store, profile: string, tenantId: string, appId: string,
                       durationHours: int64): (r: Store)
    ensures SameExcept(store, r, ConfigSection(profile), ConfigKeys())
  {
    var name := ConfigSection(profile);
    var s1 := SetKey(store, name, TenantIdKey, tenantId);
    var s2 := SetKey(s1, name, AppIdKey, appId);
    SetKey(s2, name, DurationHoursKey, Itoa(durationHours))
  }

  /** `setProfileConfig`. */
  function SetProfileConfig(file: IniFile, profile: string, tenantId: string, appId: string,
                            durationHours: int64, save: Store -> Option<Error>): (r: StoreWrite)
    ensures r.saved.Some? <==> file.Loaded?
    ensures file.Loaded? ==>
      r.saved.value == WriteConfig(file.store, profile, tenantId, appId, durationHours) &&
      r.err == save(r.saved.value)
    ensures !file.Loaded? ==> r.err.Some? && Cause(r.err.value) == Cause(file.error)
  {
    match file
    case NoHomeDir(e) =>
      StoreWrite(None, Wrap(Wrap(Some(e), "Failed to get home directory"), "Failed to get AWS config file path"))
    case Unreadable(path, e) =>
      StoreWrite(None, Wrap(Some(e), "Failed to read file: " + path))
    case Loaded(store) =>
      var written := WriteConfig(store, profile, tenantId, appId, durationHours);
      StoreWrite(Some(written), save(written))
  }

  /** Reading a profile's config after writing it gives back what was
      written. */
  lemma ConfigRoundTrip(store: Store, profile: string, tenantId: string, appId: string, durationHours: int64)
    ensures ReadConfig(WriteConfig(store, profile, tenantId, appId, durationHours), profile)
      == ProfileConfig(tenantId, appId, durationHours)
  {
    ParseIntItoa(durationHours);
  }

  /** `getProfileConfig` on the file `setProfileConfig` saved returns the
      written tenant, app and duration and no error. */
  lemma SetThenGetProfileConfig(file: IniFile, profile: string, tenantId: string, appId: string,
                                durationHours: int64, save: Store -> Option<Error>)
    requires file.Loaded?
    ensures var w := SetProfileConfig(file, profile, tenantId, appId, durationHours, save);
      GetProfileConfig(Loaded(w.saved.value), profile) == ConfigRead(tenantId, appId, durationHours, None)
  {
    ConfigRoundTrip(file.store, profile, tenantId, appId, durationHours);
  }

  /** Writing one profile's config leaves every other profile's config as it
      reads. */
  lemma WriteConfigOtherProfile(store: Store, profile: string, other: string, tenantId: string,
                                appId: string, durationHours: int64)
    requires other != profile
    ensures ReadConfig(WriteConfig(store, profile, tenantId, appId, durationHours), other)
      == ReadConfig(store, other)
  {
    if ConfigSection(other) == ConfigSection(profile) {
      ConfigSectionInjective(other, profile);
    }
  }

  // ---------------------------------------------------------------------------
  // The credentials file

  const AccessKeyIdKey: string := "aws_access_key_id"
  const SecretAccessKeyKey: string := "aws_secret_access_key"
  const SessionTokenKey: string := "aws_session_token"
  const SessionExpirationKey: string := "aws_session_expiration"

  /** The four keys `setProfileCredentials` writes. */
  function CredentialKeys(): set<string>
  {
    {AccessKeyIdKey, SecretAccessKeyKey, SessionTokenKey, SessionExpirationKey}
  }

  /** The store `setProfileCredentials` saves: the four keys set in the
      section named by the bare profile name, nothing else changed. */
  function WriteCredentials(store: Store, profile: string, credentials: Credentials): (r: Store)
    ensures SameExcept(store, r, profile, CredentialKeys())
    ensures Lookup(r, profile, AccessKeyIdKey) == credentials.accessKeyId
    ensures Lookup(r, profile, SecretAccessKeyKey) == credentials.secretAccessKey
    ensures Lookup(r, profile, SessionTokenKey) == credentials.sessionToken
    ensures Lookup(r, profile, SessionExpirationKey) == credentials.expiration
  {
    store[profile := CredentialSection(SectionOf(store, profile), credentials)]
  }

  /** A credentials section with the four keys set, in the order the source
      sets them. */
  function CredentialSection(section: Section, credentials: Credentials): Section
  {
    section[AccessKeyIdKey := credentials.accessKeyId]
           [SecretAccessKeyKey := credentials.secretAccessKey]
           [SessionTokenKey := credentials.sessionToken]
           [SessionExpirationKey := credentials.expiration]
  }

  /** `setProfileCredentials`. */
  function SetProfileCredentials(file: IniFile, profile: string, credentials: Credentials,
                                 save: Store -> Option<Error>): (r: StoreWrite)
    ensures r.saved.Some? <==> file.Loaded?
    ensures file.Loaded? ==>
      r.saved.value == WriteCredentials(file.store, profile, credentials) &&
      r.err == save(r.saved.value)
    ensures !file.Loaded? ==> r.err.Some? && Cause(r.err.value) == Cause(file.error)
  {
    match file
    case NoHomeDir(e) =>
      StoreWrite(None, Wrap(Wrap(Some(e), "Failed to get home directory"), "Failed to get AWS config file path"))
    case Unreadable(path, e) =>
      StoreWrite(None, Wrap(Some(e), "Failed to read file: " + path))
    case Loaded(store) =>
      var written := WriteCredentials(store, profile, credentials);
      StoreWrite(Some(written), save(written))
  }

  /** A second write of a profile's credentials replaces the first entirely:
      the result is as if only the second had been written. */
  lemma {:induction false} CredentialsOverwrite(store: Store, profile: string, first: Credentials, second: Credentials)
    ensures WriteCredentials(WriteCredentials(store, profile, first), profile, second)
      == WriteCredentials(store, profile, second)
  {
    var section := SectionOf(store, profile);
    var again := CredentialSection(CredentialSection(section, first), second);
    assert again == CredentialSection(section, second) by {
      assert again.Keys == CredentialSection(section, second).Keys;
    }
    assert SectionOf(WriteCredentials(store, profile, first), profile) == CredentialSection(section, first);
  }
}

=== FILE: go_errors.dfy ===
/** Go's `error` values and the github.com/pkg/errors wrapping the tool relies on.

A Go `error` is either nil or a value; it is modelled as `Option<Error>` with
`None` standing for nil. `errors.Wrap` and `errors.Wrapf` return nil when the
error they are given is nil, which several paths of the tool depend on.
 */
module GoErrors {

  datatype Option<+T> = None | Some(value: T) {
    predicate IsFailure() {
      None?
    }

    function PropagateFailure<U>(): Option<U>
      requires None?
    {
      None
    }

    function Extract(): T
      requires Some?
    {
      value
    }
  }

  /** A non-nil error: a message created by `errors.New` (or by a library),
      or an error wrapped with a context message. */
  datatype Error =
    | Leaf(msg: string)
    | Wrapped(context: string, cause: Error)

  /** Outcome of an external call that returns `(value, err)` with the value
      meaningful only when `err` is nil. */
  datatype Result<+T> = Ok(value: T) | Fail(error: Error)

  /** The innermost error of a wrap chain, what `errors.Cause` returns. */
  function Cause(e: Error): Error
  {
    match e
    case Leaf(_) => e
    case Wrapped(_, inner) => Cause(inner)
  }

  /** `errors.Wrap(err, context)` and `errors.Wrapf`: nil stays nil, anything
      else keeps its cause and gains the context. */
  function Wrap(err: Option<Error>, context: string): (r: Option<Error>)
    ensures r.None? <==> err.None?
    ensures err.Some? ==> r.value.Wrapped? && r.value.context == context
    ensures err.Some? ==> Cause(r.value) == Cause(err.value)
  {
    match err
    case None => None
    case Some(e) => Some(Wrapped(context, e))
  }

  /** `errors.New(msg)`. */
  function New(msg: string): Option<Error>
  {
    Some(Leaf(msg))
  }
}

=== FILE: go_text.dfy ===
/** The slice of Go's `strings`, `strconv` and `fmt` behaviour the tool uses:
    `strings.Split`, `strings.HasSuffix`, decimal formatting of an `int`
    (`fmt.Sprint`) and the decimal case of `strconv.ParseInt(s, 0, 64)`. */
module GoText {
  import opened GoErrors

  // ---------------------------------------------------------------------------
  // 64-bit integers (Go's `int` and `int64` on the platforms the tool targets)

  const Int64Min: int := -0x8000_0000_0000_0000
  const Int64Max: int := 0x7FFF_FFFF_FFFF_FFFF

  predicate IsInt64(v: int)
  {
    Int64Min <= v <= Int64Max
  }

  type int64 = v: int | IsInt64(v)

  /** Two's-complement wrap-around of a mathematical integer into int64. */
  function WrapInt64(v: int): (r: int64)
    ensures (r - v) % 0x1_0000_0000_0000_0000 == 0
    ensures IsInt64(v) ==> r == v
  {
    var m := (v - Int64Min) % 0x1_0000_0000_0000_0000;
    m + Int64Min
  }

  // ---------------------------------------------------------------------------
  // strings.Split with a one-character separator, and its inverse strings.Join

  /** Position of the first occurrence of `c` in `s`. */
  function IndexOf(s: string, c: char): (i: nat)
    requires c in s
    ensures i < |s| && s[i] == c
    ensures c !in s[..i]
  {
    if s[0] == c then 0
    else
      var j := IndexOf(s[1..], c);
      assert s[..j + 1] == [s[0]] + s[1..][..j];
      1 + j
  }

  /** `strings.Join(fields, string(sep))`. */
  function Join(fields: seq<string>, sep: char): string
  {
    if |fields| == 0 then ""
    else if |fields| == 1 then fields[0]
    else fields[0] + [sep] + Join(fields[1..], sep)
  }

  /** `strings.Split(s, string(sep))`: the pieces of `s` between separators.
      There is always at least one piece (the empty string splits into [""]),
      and there is more than one exactly when the separator occurs. */
  function Split(s: string, sep: char): (fields: seq<string>)
    ensures |fields| >= 1
    ensures |fields| == 1 <==> sep !in s
    ensures forall i :: 0 <= i < |fields| ==> sep !in fields[i]
    ensures Join(fields, sep) == s
    decreases |s|
  {
    if sep !in s then [s]
    else
      var i := IndexOf(s, sep);
      var rest := Split(s[i + 1..], sep);
      var fields := [s[..i]] + rest;
      assert fields[1..] == rest;
      assert s == s[..i] + [sep] + s[i + 1..];
      fields
  }

  /** Splitting undoes joining, as long as no piece contains the separator. */
  lemma {:induction false} SplitJoin(fields: seq<string>, sep: char)
    requires |fields| >= 1
    requires forall i :: 0 <= i < |fields| ==> sep !in fields[i]
    ensures Split(Join(fields, sep), sep) == fields
  {
    if |fields| == 1 {
      assert Join(fields, sep) == fields[0];
    } else {
      var tail := fields[1..];
      assert Join(fields, sep) == fields[0] + [sep] + Join(tail, sep);
      SplitAtFirst(fields[0], sep, Join(tail, sep));
      SplitJoin(tail, sep);
      assert fields == [fields[0]] + tail;
    }
  }

  /** The first separator after separator-free text `a` is right after it. */
  lemma {:induction false} IndexOfAfter(a: string, sep: char, b: string)
    requires sep !in a
    ensures IndexOf(a + [sep] + b, sep) == |a|
  {
    var s := a + [sep] + b;
    if |a| > 0 {
      assert s[0] == a[0];
      assert s[1..] == a[1..] + [sep] + b;
      IndexOfAfter(a[1..], sep, b);
    }
  }

  /** Splitting at a first separator peels off the text before it. */
  lemma SplitAtFirst(a: string, sep: char, b: string)
    requires sep !in a
    ensures Split(a + [sep] + b, sep) == [a] + Split(b, sep)
  {
    var s := a + [sep] + b;
    IndexOfAfter(a, sep, b);
    assert s[..|a|] == a;
    assert s[|a| + 1..] == b;
  }

  /** `strings.HasSuffix(s, suffix)`. */
  predicate HasSuffix(s: string, suffix: string)
  {
    |suffix| <= |s| && s[|s| - |suffix|..] == suffix
  }

  /** `s` has the suffix exactly when it is some text followed by it. */
  lemma HasSuffixIff(s: string, suffix: string)
    ensures HasSuffix(s, suffix) <==> exists p :: s == p + suffix
  {
    if HasSuffix(s, suffix) {
      assert s == s[..|s| - |suffix|] + suffix;
    }
    if p :| s == p + suffix {
      assert s[|s| - |suffix|..] == suffix;
    }
  }

  // ---------------------------------------------------------------------------
  // Decimal text: fmt.Sprint of an int, and strconv.ParseInt on decimal input

  predicate IsDigit(c: char)
  {
    '0' <= c <= '9'
  }

  predicate AllDigits(s: string)
  {
    forall i :: 0 <= i < |s| ==> IsDigit(s[i])
  }

  /** A decimal numeral without sign or redundant leading zero, which is what
      `strconv.ParseInt` with base 0 reads as base ten. */
  predicate IsDecimal(s: string)
  {
    |s| >= 1 && AllDigits(s) && (s[0] == '0' ==> |s| == 1)
  }

  function DigitChar(d: nat): (c: char)
    requires d < 10
    ensures IsDigit(c) && (c - '0') as int == d
  {
    ('0' as int + d) as char
  }

  /** The decimal digits of `n`, most significant first. */
  function Digits(n: nat): (s: string)
    ensures IsDecimal(s)
    ensures s[0] == '0' <==> n == 0
  {
    if n < 10 then [DigitChar(n)]
    else
      var high := Digits(n / 10);
      high + [DigitChar(n % 10)]
  }

  /** The number a string of digits denotes. */
  function DigitsValue(s: string): nat
    requires AllDigits(s)
  {
    if |s| == 0 then 0
    else DigitsValue(s[..|s| - 1]) * 10 + (s[|s| - 1] - '0') as int
  }

  lemma {:induction false} DigitsValueOfDigits(n: nat)
    ensures DigitsValue(Digits(n)) == n
  {
    if n >= 10 {
      var s := Digits(n);
      assert s[..|s| - 1] == Digits(n / 10);
      DigitsValueOfDigits(n / 10);
    }
  }

  /** `fmt.Sprint(n)` for an int. */
  function Itoa(n: int): (s: string)
    ensures |s| >= 1
    ensures s[0] == '-' <==> n < 0
    ensures n >= 0 ==> IsDecimal(s)
    ensures n < 0 ==> IsDecimal(s[1..])
  {
    if n < 0 then
      var d := Digits(-n);
      assert ("-" + d)[1..] == d;
      "-" + d
    else Digits(n)
  }

  /** `strconv.ParseInt(s, 0, 64)` on decimal input: an optional sign, then
      a decimal numeral, within the int64 range; every other string is an
      error (`None`). */
  function ParseInt(s: string): (r: Option<int64>)
    ensures r.Some? ==> s == Itoa(r.value) || s == "+" + Itoa(r.value) || s == "-0"
  {
    if |s| >= 1 && (s[0] == '-' || s[0] == '+') then
      if IsDecimal(s[1..]) then
        var magnitude := DigitsValue(s[1..]);
        var v := if s[0] == '-' then 0 - magnitude else magnitude;
        if IsInt64(v) then
          ParseIntSigned(s, magnitude);
          Some(v)
        else None
      else None
    else if IsDecimal(s) && IsInt64(DigitsValue(s)) then
      ParseIntUnsigned(s);
      Some(DigitsValue(s))
    else None
  }

  /** Two decimal numerals with the same value are the same text. */
  lemma {:induction false} DecimalUnique(s: string)
    requires IsDecimal(s)
    ensures Digits(DigitsValue(s)) == s
    decreases |s|
  {
    var n := DigitsValue(s);
    if |s| == 1 {
      assert s[..|s| - 1] == "";
      assert DigitsValue(s[..|s| - 1]) == 0;
      assert n == (s[0] - '0') as int;
    } else {
      var high := s[..|s| - 1];
      assert AllDigits(high);
      assert high[0] == s[0];
      DigitsValuePositive(high);
      DecimalUnique(high);
      assert n == DigitsValue(high) * 10 + (s[|s| - 1] - '0') as int;
      assert n / 10 == DigitsValue(high);
      assert n % 10 == (s[|s| - 1] - '0') as int;
      assert s == high + [s[|s| - 1]];
    }
  }

  lemma {:induction false} DigitsValuePositive(s: string)
    requires IsDecimal(s) && s[0] != '0'
    ensures DigitsValue(s) > 0
    decreases |s|
  {
    if |s| > 1 {
      var high := s[..|s| - 1];
      assert high[0] == s[0];
      DigitsValuePositive(high);
    }
  }

  lemma ParseIntUnsigned(s: string)
    requires IsDecimal(s)
    ensures s == Itoa(DigitsValue(s))
  {
    DecimalUnique(s);
  }

  lemma ParseIntSigned(s: string, magnitude: nat)
    requires |s| >= 1 && (s[0] == '-' || s[0] == '+')
    requires IsDecimal(s[1..]) && magnitude == DigitsValue(s[1..])
    ensures s[0] == '-' && magnitude != 0 ==> s == Itoa(0 - magnitude)
    ensures s[0] == '-' && magnitude == 0 ==> s == "-0"
    ensures s[0] == '+' ==> s == "+" + Itoa(magnitude)
  {
    DecimalUnique(s[1..]);
    assert s == [s[0]] + s[1..];
  }

  /** Reading back what `fmt.Sprint` wrote gives the original int. */
  lemma ParseIntItoa(n: int64)
    ensures ParseInt(Itoa(n)) == Some(n)
  {
    var s := Itoa(n);
    if n < 0 {
      NegativeText(n);
      DigitsValueOfDigits(0 - n);
      assert IsDecimal(s[1..]) && DigitsValue(s[1..]) == 0 - n;
    } else {
      DigitsValueOfDigits(n);
      assert IsDigit(s[0]);
      assert !(s[0] == '-' || s[0] == '+');
    }
  }

  /** A "+" in front of a non-negative int's decimal text is accepted. */
  lemma ParseIntPlusItoa(n: int64)
    requires n >= 0
    ensures ParseInt("+" + Itoa(n)) == Some(n)
  {
    var s := "+" + Itoa(n);
    assert s[0] == '+' && s[1..] == Itoa(n);
    DigitsValueOfDigits(n);
  }

  /** "-0" reads as zero. */
  lemma ParseIntMinusZero()
    ensures ParseInt("-0") == Some(0)
  {
    var s := "-0";
    assert s[0] == '-' && s[1..] == "0";
    assert DigitsValue("0") == 0 by {
      assert "0"[..0] == "";
    }
  }

  /** Every text `ParseInt` accepts, read in all three spellings. */
  lemma ParseIntAccepts()
    ensures forall n: int64 {:trigger Itoa(n)} :: ParseInt(Itoa(n)) == Some(n)
    ensures forall n: int64 {:trigger Itoa(n)} :: n >= 0 ==> ParseInt("+" + Itoa(n)) == Some(n)
    ensures ParseInt("-0") == Some(0)
  {
    forall n: int64 ensures ParseInt(Itoa(n)) == Some(n) && (n >= 0 ==> ParseInt("+" + Itoa(n)) == Some(n)) {
      ParseIntItoa(n);
      if n >= 0 {
        ParseIntPlusItoa(n);
      }
    }
    ParseIntMinusZero();
  }

  lemma NegativeText(n: int)
    requires n < 0
    ensures Itoa(n)[0] == '-' && Itoa(n)[1..] == Digits(0 - n)
  {
    var d := Digits(0 - n);
    assert ("-" + d)[1..] == d;
  }
}

=== FILE: interceptor.dfy ===
/** The event loop inside `run` (main.go): it listens to the browser's
    devtools notifications until the browser POSTs the SAML response to the
    AWS sign-in endpoint, then pulls the `SAMLResponse` form value out of
    that request's body.

The channel the loop reads is modelled as the finite sequence of what its
`select` observes, one item per iteration: a delivered message, or the
context being done. JSON decoding of a message's parameters is an outcome
carried by the message; base64 decoding and `url.ParseQuery` are functions
given as inputs. */
module Interceptor {
  import opened GoErrors
  import Saml

  const RequestWillBeSent: string := "Network.requestWillBeSent"
  const SamlResponseField: string := "SAMLResponse"

  /** `ctx.Err()` once the context has been cancelled. */
  const ContextCanceled: Error := Leaf("context canceled")

  /** One entry of a request's post data; `bytes` is base64 text. */
  datatype PostDataEntry = PostDataEntry(bytes: string)

  /** The fields of `network.EventRequestWillBeSent.Request` the loop reads. */
  datatype Request = Request(url: string, hasPostData: bool, postDataEntries: seq<PostDataEntry>)

  /** The outcome of `json.Unmarshal(msg.Params, &reqWillSend)`. */
  datatype Params = Decoded(request: Request) | Undecodable(error: Error)

  /** A devtools message: its method name and its parameters. */
  datatype Message = Message(methodName: string, params: Params)

  /** What one iteration's `select` observes. */
  datatype Incoming = Deliver(message: Message) | Cancel

  /** A parsed form body, `url.Values`. */
  type Form = map<string, seq<string>>

  /** The request the loop is waiting for: a POST with a body to the exact
      sign-in URL, the assertion consumer URL the AuthnRequest names. */
  predicate IsSamlPost(r: Request)
  {
    r.url == Saml.AcsUrl && r.hasPostData && |r.postDataEntries| > 0
  }

  /** A message after which the loop keeps listening: another method, or a
      `requestWillBeSent` for some other request. */
  predicate Skipped(m: Message)
  {
    m.methodName != RequestWillBeSent || (m.params.Decoded? && !IsSamlPost(m.params.request))
  }

  /** Every item before position `n` is a skipped message. */
  predicate SkippedBefore(stream: seq<Incoming>, n: nat)
    requires n <= |stream|
  {
    forall j :: 0 <= j < n ==> stream[j].Deliver? && Skipped(stream[j].message)
  }

  /** How listening ends, and at which item. `Waiting` means the items ran
      out with the loop still listening. */
  datatype Interception =
    | Matched(at: nat, request: Request)
    | DecodeFailed(at: nat, error: Error)
    | Cancelled(at: nat)
    | Waiting

  /** The listening part of the loop, from item `i` on. */
  function InterceptFrom(stream: seq<Incoming>, i: nat): (r: Interception)
    requires i <= |stream|
    requires SkippedBefore(stream, i)
    ensures r.Matched? ==>
      && r.at < |stream| && SkippedBefore(stream, r.at) && IsSamlPost(r.request)
      && stream[r.at] == Deliver(Message(RequestWillBeSent, Decoded(r.request)))
    ensures r.DecodeFailed? ==>
      && r.at < |stream| && SkippedBefore(stream, r.at)
      && stream[r.at] == Deliver(Message(RequestWillBeSent, Undecodable(r.error)))
    ensures r.Cancelled? ==> r.at < |stream| && SkippedBefore(stream, r.at) && stream[r.at] == Cancel
    ensures r.Waiting? ==> SkippedBefore(stream, |stream|)
    decreases |stream| - i
  {
    if i == |stream| then Waiting
    else
      match stream[i]
      case Cancel => Cancelled(i)
      case Deliver(m) =>
        if m.methodName != RequestWillBeSent then InterceptFrom(stream, i + 1)
        else
          match m.params
          case Undecodable(e) => DecodeFailed(i, e)
          case Decoded(request) =>
            if IsSamlPost(request) then Matched(i, request)
            else InterceptFrom(stream, i + 1)
  }

  /** The loop listening from the first item. */
  function Intercept(stream: seq<Incoming>): Interception
  {
    InterceptFrom(stream, 0)
  }

  /** The loop acts on the first item that is not a skipped message, and
      nothing after it affects the outcome. */
  lemma {:induction false} InterceptFirstStop(prefix: seq<Incoming>, item: Incoming, rest: seq<Incoming>)
    requires SkippedBefore(prefix, |prefix|)
    requires !(item.Deliver? && Skipped(item.message))
    ensures Intercept(prefix + [item] + rest) == Intercept(prefix + [item])
    ensures Intercept(prefix + [item]) ==
      match item
      case Cancel => Cancelled(|prefix|)
      case Deliver(m) =>
        match m.params
        case Undecodable(e) => DecodeFailed(|prefix|, e)
        case Decoded(request) => Matched(|prefix|, request)
  {
    var s := prefix + [item] + rest;
    var t := prefix + [item];
    assert SkippedBefore(s, |prefix|) by {
      assert forall j :: 0 <= j < |prefix| ==> s[j] == prefix[j];
    }
    assert SkippedBefore(t, |prefix|) by {
      assert forall j :: 0 <= j < |prefix| ==> t[j] == prefix[j];
    }
    SkipPrefix(s, |prefix|);
    SkipPrefix(t, |prefix|);
    assert s[|prefix|] == item && t[|prefix|] == item;
  }

  /** Skipped messages at the front only move along the position. */
  lemma {:induction false} SkipPrefix(stream: seq<Incoming>, n: nat)
    requires n <= |stream| && SkippedBefore(stream, n)
    ensures InterceptFrom(stream, 0) == InterceptFrom(stream, n)
    decreases n
  {
    if n > 0 {
      SkipPrefix(stream, n - 1);
      assert stream[n - 1].Deliver? && Skipped(stream[n - 1].message);
    }
  }

  /** Once the loop has stopped, later items are never consumed: appending
      to the observed sequence does not change the outcome. */
  lemma NoLookahead(stream: seq<Incoming>, later: seq<Incoming>)
    requires !Intercept(stream).Waiting?
    ensures Intercept(stream + later) == Intercept(stream)
  {
    var r := Intercept(stream);
    var n := match r
      case Matched(at, _) => at
      case DecodeFailed(at, _) => at
      case Cancelled(at) => at;
    var prefix := stream[..n];
    var rest := stream[n + 1..];
    assert stream == prefix + [stream[n]] + rest;
    assert stream + later == prefix + [stream[n]] + (rest + later);
    assert SkippedBefore(prefix, |prefix|) by {
      assert forall j :: 0 <= j < n ==> prefix[j] == stream[j];
    }
    InterceptFirstStop(prefix, stream[n], rest);
    InterceptFirstStop(prefix, stream[n], rest + later);
  }

  /** A decoded `requestWillBeSent` is the match exactly when it is a POST
      with a body to the sign-in URL; any other request is passed over. */
  lemma MatchesExactlySamlPosts(prefix: seq<Incoming>, request: Request, rest: seq<Incoming>)
    requires SkippedBefore(prefix, |prefix|)
    ensures var stream := prefix + [Deliver(Message(RequestWillBeSent, Decoded(request)))] + rest;
      Intercept(stream) == Matched(|prefix|, request) <==> IsSamlPost(request)
  {
    var item := Deliver(Message(RequestWillBeSent, Decoded(request)));
    if IsSamlPost(request) {
      InterceptFirstStop(prefix, item, rest);
    } else {
      var stream := prefix + [item] + rest;
      assert SkippedBefore(stream, |prefix| + 1) by {
        assert forall j :: 0 <= j < |prefix| ==> stream[j] == prefix[j];
        assert stream[|prefix|] == item;
      }
      SkipPrefix(stream, |prefix| + 1);
    }
  }

  /** A `requestWillBeSent` whose parameters do not decode ends the loop with
      that error, even when a matching request would have come later. */
  lemma DecodeFailureAborts(prefix: seq<Incoming>, e: Error, rest: seq<Incoming>)
    requires SkippedBefore(prefix, |prefix|)
    ensures Intercept(prefix + [Deliver(Message(RequestWillBeSent, Undecodable(e)))] + rest)
      == DecodeFailed(|prefix|, e)
  {
    InterceptFirstStop(prefix, Deliver(Message(RequestWillBeSent, Undecodable(e))), rest);
  }

  /** Where the loop goes after the match. */
  datatype Extraction =
    | Assertion(samlResponse: string)   // `assumeRole` is called with it
    | Stop(err: Option<Error>)          // the loop returns this error

  /** Decode the first post-data entry, parse it as a form and take the first
      `SAMLResponse` value. A missing or empty `SAMLResponse` stops with a nil
      error: it is wrapped from the nil `err` left by `url.ParseQuery`. */
  function ExtractAssertion(request: Request, base64Decode: string -> Result<string>,
                            parseQuery: string -> Result<Form>): (r: Extraction)
    requires |request.postDataEntries| > 0
    ensures r.Assertion? <==>
      && base64Decode(request.postDataEntries[0].bytes).Ok?
      && parseQuery(base64Decode(request.postDataEntries[0].bytes).value).Ok?
      && var form := parseQuery(base64Decode(request.postDataEntries[0].bytes).value).value;
         SamlResponseField in form && |form[SamlResponseField]| > 0
    ensures r.Assertion? ==>
      r.samlResponse == parseQuery(base64Decode(request.postDataEntries[0].bytes).value).value[SamlResponseField][0]
    ensures base64Decode(request.postDataEntries[0].bytes).Fail? ==>
      r.Stop? && r.err.Some? && Cause(r.err.value) == Cause(base64Decode(request.postDataEntries[0].bytes).error)
    ensures base64Decode(request.postDataEntries[0].bytes).Ok? &&
            parseQuery(base64Decode(request.postDataEntries[0].bytes).value).Fail? ==>
      && r.Stop? && r.err.Some?
      && Cause(r.err.value) == Cause(parseQuery(base64Decode(request.postDataEntries[0].bytes).value).error)
  {
    match base64Decode(request.postDataEntries[0].bytes)
    case Fail(e) => Stop(Wrap(Some(e), "Failed to decode post data"))
    case Ok(body) =>
      match parseQuery(body)
      case Fail(e) => Stop(Wrap(Some(e), "Failed to parse query"))
      case Ok(form) =>
        if SamlResponseField !in form || |form[SamlResponseField]| == 0 then
          Stop(Wrap(None, "No such key: " + SamlResponseField))
        else Assertion(form[SamlResponseField][0])
  }

  /** A form without a usable `SAMLResponse` ends the loop with no error. */
  lemma MissingSamlResponseIsNil(request: Request, base64Decode: string -> Result<string>,
                                 parseQuery: string -> Result<Form>)
    requires |request.postDataEntries| > 0
    requires base64Decode(request.postDataEntries[0].bytes).Ok?
    requires var body := base64Decode(request.postDataEntries[0].bytes).value;
      parseQuery(body).Ok? &&
      (SamlResponseField !in parseQuery(body).value || |parseQuery(body).value[SamlResponseField]| == 0)
    ensures ExtractAssertion(request, base64Decode, parseQuery) == Stop(None)
  {
  }

  /** How the loop leaves listening. */
  datatype LoopExit =
    | CallAssumeRole(assertion: string)   // the match produced an assertion
    | Exit(err: Option<Error>)            // the loop returned without calling assumeRole
    | StillListening                      // waiting for the next item

  /** The whole loop up to the `assumeRole` call. */
  function EventLoop(stream: seq<Incoming>, base64Decode: string -> Result<string>,
                     parseQuery: string -> Result<Form>): (r: LoopExit)
    ensures r.StillListening? <==> Intercept(stream).Waiting?
    ensures Intercept(stream).Cancelled? ==> r == Exit(Some(ContextCanceled))
    ensures Intercept(stream).DecodeFailed? ==> r == Exit(Some(Intercept(stream).error))
    ensures r.CallAssumeRole? ==>
      Intercept(stream).Matched? && IsSamlPost(Intercept(stream).request) &&
      ExtractAssertion(Intercept(stream).request, base64Decode, parseQuery) == Assertion(r.assertion)
    ensures Intercept(stream).Matched? ==>
      match ExtractAssertion(Intercept(stream).request, base64Decode, parseQuery)
      case Assertion(a) => r == CallAssumeRole(a)
      case Stop(e) => r == Exit(e)
  {
    match Intercept(stream)
    case Waiting => StillListening
    case Cancelled(_) => Exit(Some(ContextCanceled))
    case DecodeFailed(_, e) => Exit(Some(e))
    case Matched(_, request) =>
      match ExtractAssertion(request, base64Decode, parseQuery)
      case Assertion(a) => CallAssumeRole(a)
      case Stop(e) => Exit(e)
  }

  /** Cancellation observed before any match ends the loop with the context
      error and without calling `assumeRole`. */
  lemma CancelBeforeMatch(prefix: seq<Incoming>, rest: seq<Incoming>, base64Decode: string -> Result<string>,
                          parseQuery: string -> Result<Form>)
    requires SkippedBefore(prefix, |prefix|)
    ensures EventLoop(prefix + [Cancel] + rest, base64Decode, parseQuery) == Exit(Some(ContextCanceled))
  {
    InterceptFirstStop(prefix, Cancel, rest);
  }
}

=== FILE: pipeline.dfy ===
/** `run` and `assumeRole` (main.go): the order in which one login reads the
    profile configuration, opens the login page, waits for the SAML response,
    resolves the role pair, calls STS and writes the credentials.

Everything outside the tool's own logic is a collaborator whose outcome is
an input: the config and credentials files, the browser (enabling network
events, navigation, and the items the event loop observes), uuid and clock,
deflate, base64, query escaping and parsing, SAML response parsing, and the
STS call. Flag parsing and the --configure prompts are not modelled; the
profile and role names arrive as parameters. */
module Pipeline {
  import opened GoErrors
  import opened GoText
  import opened Saml
  import opened Aws
  import opened Interceptor

  /** The outcomes of everything `run` calls outside the tool. */
  datatype Collaborators = Collaborators(
    configFile: IniFile,
    credentialsFile: IniFile,
    saveCredentials: Store -> Option<Error>,
    enableNetwork: Option<Error>,
    uuid: Result<string>,
    issueInstant: string,
    deflate: string -> Result<seq<bv8>>,
    base64Encode: seq<bv8> -> string,
    queryEscape: string -> string,
    navigate: string -> Option<Error>,
    events: seq<Incoming>,
    base64Decode: string -> Result<string>,
    parseQuery: string -> Result<Form>,
    parseResponse: string -> Result<Response>,
    sts: AssumeRoleInput -> Result<Credentials>)

  /** How `run` ends. `saved` is the credentials store handed to `SaveTo`,
      if the run got that far. */
  datatype RunResult =
    | Finished(err: Option<Error>, saved: Option<Store>)
    | UsageExit   // `usage()` exits the process when no role name is given
    | Blocked     // the event loop is still waiting for the next item
    | Panicked    // `parseArn` indexed a role value that has no comma

  /** The login page URL, with the escaped request as a query parameter. */
  function LoginUrl(tenantId: string, escapedRequest: string): string
  {
    LoginHost + (tenantId + ['/'] + (RequestQuery + escapedRequest))
  }

  const LoginHost: string := "https://login.microsoftonline.com/"
  const RequestQuery: string := "saml2?SAMLRequest="

  /** `assumeRole`: resolve the role pair, exchange the assertion at STS,
      and only then write the credentials. */
  function AssumeRole(assertion: string, durationHours: int64, profile: string, roleName: string,
                      parseResponse: string -> Result<Response>,
                      sts: AssumeRoleInput -> Result<Credentials>,
                      credentialsFile: IniFile, save: Store -> Option<Error>): (r: StoreWrite)
    requires ParseSafe(parseResponse(assertion), roleName)
    ensures var arns := ParseArn(parseResponse(assertion), roleName);
      arns.err.Some? ==> r.saved.None? && r.err.Some? && Cause(r.err.value) == Cause(arns.err.value)
    ensures r.saved.Some? ==>
      && var arns := ParseArn(parseResponse(assertion), roleName);
      && arns.err.None?
      && var input := BuildAssumeRoleInput(arns.roleArn, arns.principalArn, assertion, durationHours);
      && sts(input).Ok?
      && credentialsFile.Loaded?
      && r.saved.value == WriteCredentials(credentialsFile.store, profile, sts(input).value)
    ensures var arns := ParseArn(parseResponse(assertion), roleName);
      var input := BuildAssumeRoleInput(arns.roleArn, arns.principalArn, assertion, durationHours);
      && (arns.err.None? && sts(input).Ok? ==>
            r == SetProfileCredentials(credentialsFile, profile, sts(input).value, save))
      && (arns.err.None? && sts(input).Fail? ==>
            r.saved.None? && r.err.Some? && Cause(r.err.value) == Cause(sts(input).error))
  {
    var arns := ParseArn(parseResponse(assertion), roleName);
    if arns.err.Some? then
      StoreWrite(None, Wrap(arns.err, "Failed to parse arn from SAML response"))
    else
      match AssumeRoleWithSAML(arns.roleArn, arns.principalArn, assertion, durationHours, sts)
      case Fail(e) => StoreWrite(None, Wrap(Some(e), "Failed to assume role with SAML"))
      case Ok(credentials) => SetProfileCredentials(credentialsFile, profile, credentials, save)
  }

  /** A role that is not found does not stop `assumeRole`: `parseArn`'s error
      is nil, so STS is asked for a role with empty ARNs, and whatever it
      answers decides the outcome. */
  lemma RoleNotFoundStillCallsSts(assertion: string, durationHours: int64, profile: string, roleName: string,
                                  parseResponse: string -> Result<Response>,
                                  sts: AssumeRoleInput -> Result<Credentials>,
                                  credentialsFile: IniFile, save: Store -> Option<Error>)
    requires parseResponse(assertion).Ok?
    requires forall j :: 0 <= j < |parseResponse(assertion).value.attributes| ==>
      !IsRoleAttribute(parseResponse(assertion).value.attributes[j])
    ensures ParseSafe(parseResponse(assertion), roleName)
    ensures var input := AssumeRoleInput(DurationSeconds(durationHours), "", "", assertion);
      AssumeRole(assertion, durationHours, profile, roleName, parseResponse, sts, credentialsFile, save) ==
        match sts(input)
        case Fail(e) => StoreWrite(None, Some(Wrapped("Failed to assume role with SAML",
                                                       Wrapped("Failed to AssumeRoleWithSAMLWithContext", e))))
        case Ok(credentials) => SetProfileCredentials(credentialsFile, profile, credentials, save)
  {
    NoRoleAttributeNotFound(parseResponse(assertion).value.attributes, roleName);
  }

  /** The config is read and usable, a role name is given, and the browser
      reached the login page: the point where the event loop starts. */
  predicate ReachesLoop(profile: string, roleName: string, env: Collaborators)
  {
    var config := GetProfileConfig(env.configFile, profile);
    && config.err.None? && config.tenantId != "" && config.appId != ""
    && roleName != ""
    && env.enableNetwork.None?
    && var request := CreateSAMLRequest(env.uuid, env.issueInstant, config.appId, env.deflate, env.base64Encode);
    && request.Ok?
    && env.navigate(LoginUrl(config.tenantId, env.queryEscape(request.value))).None?
  }

  /** `run` after flag parsing, for a profile and role name. */
  function Run(profile: string, roleName: string, env: Collaborators): (r: RunResult)
    ensures ReachesLoop(profile, roleName, env) ==>
      r == HandleEvents(profile, roleName, GetProfileConfig(env.configFile, profile).durationHours, env)
    ensures !ReachesLoop(profile, roleName, env) ==>
      r.UsageExit? || (r.Finished? && r.saved.None? && r.err.Some?)
    ensures r.UsageExit? ==> roleName == ""
    ensures var config := GetProfileConfig(env.configFile, profile);
      config.err.None? && config.tenantId != "" && config.appId != "" && roleName == "" ==> r == UsageExit
    ensures var config := GetProfileConfig(env.configFile, profile);
      config.err.Some? ==>
        r.Finished? && r.saved.None? && r.err.Some? && Cause(r.err.value) == Cause(config.err.value)
  {
    var config := GetProfileConfig(env.configFile, profile);
    if config.err.Some? then
      Finished(Wrap(config.err, "Failed to get config parameters"), None)
    else if config.tenantId == "" || config.appId == "" then
      Finished(New("You must configure it first with --configure"), None)
    else if roleName == "" then
      UsageExit
    else if env.enableNetwork.Some? then
      Finished(env.enableNetwork, None)
    else
      match CreateSAMLRequest(env.uuid, env.issueInstant, config.appId, env.deflate, env.base64Encode)
      case Fail(e) => Finished(Some(e), None)
      case Ok(request) =>
        var navigation := env.navigate(LoginUrl(config.tenantId, env.queryEscape(request)));
        if navigation.Some? then Finished(navigation, None)
        else HandleEvents(profile, roleName, config.durationHours, env)
  }

  /** The event loop of `run` and what follows it: `assumeRole` on the
      intercepted assertion, with every error wrapped as the loop returns it. */
  function HandleEvents(profile: string, roleName: string, durationHours: int64, env: Collaborators): (r: RunResult)
    ensures r.Finished? && r.saved.Some? ==>
      && var exit := EventLoop(env.events, env.base64Decode, env.parseQuery);
      && exit.CallAssumeRole?
      && ParseSafe(env.parseResponse(exit.assertion), roleName)
      && var arns := ParseArn(env.parseResponse(exit.assertion), roleName);
      && arns.err.None?
      && var input := BuildAssumeRoleInput(arns.roleArn, arns.principalArn, exit.assertion, durationHours);
      && env.sts(input).Ok?
      && env.credentialsFile.Loaded?
      && r.saved.value == WriteCredentials(env.credentialsFile.store, profile, env.sts(input).value)
    ensures var exit := EventLoop(env.events, env.base64Decode, env.parseQuery);
      && (r.Blocked? <==> exit.StillListening?)
      && (r.Panicked? <==> exit.CallAssumeRole? && !ParseSafe(env.parseResponse(exit.assertion), roleName))
      && (exit.Exit? ==> r.Finished? && r.saved.None? && (r.err.Some? <==> exit.err.Some?))
      && (exit.CallAssumeRole? && ParseSafe(env.parseResponse(exit.assertion), roleName) ==>
            var w := AssumeRole(exit.assertion, durationHours, profile, roleName, env.parseResponse,
                                env.sts, env.credentialsFile, env.saveCredentials);
            && r.Finished? && r.saved == w.saved
            && (r.err.Some? <==> w.err.Some?)
            && (w.err.Some? ==> Cause(r.err.value) == Cause(w.err.value)))
  {
    match EventLoop(env.events, env.base64Decode, env.parseQuery)
    case StillListening => Blocked
    case Exit(e) => Finished(Wrap(e, "Failed to handle events"), None)
    case CallAssumeRole(assertion) =>
      if !ParseSafe(env.parseResponse(assertion), roleName) then Panicked
      else
        var w := AssumeRole(assertion, durationHours, profile, roleName, env.parseResponse,
                            env.sts, env.credentialsFile, env.saveCredentials);
        Finished(Wrap(Wrap(w.err, "Failed to assume role"), "Failed to handle events"), w.saved)
  }

  /** Credentials are written only at the end of a complete login: the loop
      was reached, a request matched with an assertion, the role pair was
      read without error and STS answered; what is saved is STS's answer. */
  lemma SavedOnlyAfterLogin(profile: string, roleName: string, env: Collaborators)
    ensures Run(profile, roleName, env).Finished? && Run(profile, roleName, env).saved.Some? ==>
      && ReachesLoop(profile, roleName, env)
      && var exit := EventLoop(env.events, env.base64Decode, env.parseQuery);
      && exit.CallAssumeRole?
      && ParseSafe(env.parseResponse(exit.assertion), roleName)
      && var arns := ParseArn(env.parseResponse(exit.assertion), roleName);
      && arns.err.None?
      && var config := GetProfileConfig(env.configFile, profile);
      && var input := BuildAssumeRoleInput(arns.roleArn, arns.principalArn, exit.assertion, config.durationHours);
      && env.sts(input).Ok?
      && env.credentialsFile.Loaded?
      && Run(profile, roleName, env).saved.value == WriteCredentials(env.credentialsFile.store, profile, env.sts(input).value)
  {
  }

  /** A run that blocks reached the loop, and the loop is still waiting. */
  lemma BlockedMeansListening(profile: string, roleName: string, env: Collaborators)
    requires Run(profile, roleName, env).Blocked?
    ensures ReachesLoop(profile, roleName, env) && Intercept(env.events).Waiting?
  {
  }

  /** The normal login: the matched request carries an assertion, the role
      pair is read from it, STS answers, and the credentials file takes STS's
      credentials for that pair; the run returns whatever saving returns. */
  lemma SuccessfulLoginSavesCredentials(profile: string, roleName: string, env: Collaborators)
    requires ReachesLoop(profile, roleName, env)
    requires EventLoop(env.events, env.base64Decode, env.parseQuery).CallAssumeRole?
    requires var a := EventLoop(env.events, env.base64Decode, env.parseQuery).assertion;
      && ParseSafe(env.parseResponse(a), roleName)
      && env.parseResponse(a).Ok?
    requires env.credentialsFile.Loaded?
    ensures var a := EventLoop(env.events, env.base64Decode, env.parseQuery).assertion;
      var arns := ParseArn(env.parseResponse(a), roleName);
      var config := GetProfileConfig(env.configFile, profile);
      var input := BuildAssumeRoleInput(arns.roleArn, arns.principalArn, a, config.durationHours);
      match env.sts(input)
      case Ok(credentials) =>
        var written := WriteCredentials(env.credentialsFile.store, profile, credentials);
        Run(profile, roleName, env).Finished? &&
        Run(profile, roleName, env).saved == Some(written) &&
        (Run(profile, roleName, env).err.None? <==> env.saveCredentials(written).None?)
      case Fail(e) =>
        Run(profile, roleName, env).Finished? && Run(profile, roleName, env).saved.None? &&
        Run(profile, roleName, env).err.Some? && Cause(Run(profile, roleName, env).err.value) == Cause(e)
  {
  }

  /** The login URL gives back its tenant and escaped request: a tenant id
      without a '/' ends where the path's "/saml2" begins. */
  lemma LoginUrlDecodes(tenantId: string, escaped: string, tenantId': string, escaped': string)
    requires '/' !in tenantId && '/' !in tenantId'
    requires LoginUrl(tenantId, escaped) == LoginUrl(tenantId', escaped')
    ensures tenantId == tenantId' && escaped == escaped'
  {
    var host := LoginHost;
    var path := RequestQuery;
    var u := tenantId + ['/'] + (path + escaped);
    var u' := tenantId' + ['/'] + (path + escaped');
    assert u == (host + u)[|host|..] && u' == (host + u')[|host|..];
    IndexOfAfter(tenantId, '/', path + escaped);
    IndexOfAfter(tenantId', '/', path + escaped');
    assert tenantId == u[..|tenantId|] && tenantId' == u'[..|tenantId'|];
    assert path + escaped == u[|tenantId| + 1..] && path + escaped' == u'[|tenantId'| + 1..];
    assert escaped == (path + escaped)[|path|..] && escaped' == (path + escaped')[|path|..];
  }

  /** A profile without tenant or app id stops the run with the configure
      error, before any browser or request step and without writing. */
  lemma UnconfiguredProfileStops(profile: string, roleName: string, env: Collaborators)
    requires env.configFile.Loaded?
    requires var c := ReadConfig(env.configFile.store, profile); c.tenantId == "" || c.appId == ""
    ensures Run(profile, roleName, env) == Finished(New("You must configure it first with --configure"), None)
  {
  }

  /** Cancellation seen before any match ends the run with the context error;
      STS is not called and nothing is written. */
  lemma CancelledRunWritesNothing(profile: string, roleName: string, env: Collaborators,
                                  prefix: seq<Incoming>, rest: seq<Incoming>)
    requires ReachesLoop(profile, roleName, env)
    requires SkippedBefore(prefix, |prefix|) && env.events == prefix + [Cancel] + rest
    ensures Run(profile, roleName, env) == Finished(Some(Wrapped("Failed to handle events", ContextCanceled)), None)
  {
    CancelBeforeMatch(prefix, rest, env.base64Decode, env.parseQuery);
  }

  /** A matched request whose form has no usable `SAMLResponse` ends the run
      with no error and no credentials written. */
  lemma MissingSamlResponseSucceedsSilently(profile: string, roleName: string, env: Collaborators)
    requires ReachesLoop(profile, roleName, env)
    requires Intercept(env.events).Matched?
    requires var request := Intercept(env.events).request;
      && env.base64Decode(request.postDataEntries[0].bytes).Ok?
      && var body := env.base64Decode(request.postDataEntries[0].bytes).value;
      && env.parseQuery(body).Ok?
      && (SamlResponseField !in env.parseQuery(body).value ||
          |env.parseQuery(body).value[SamlResponseField]| == 0)
    ensures Run(profile, roleName, env) == Finished(None, None)
  {
    MissingSamlResponseIsNil(Intercept(env.events).request, env.base64Decode, env.parseQuery);
  }

  /** Only the first `SAMLResponse` value of the first matched request is
      exchanged: a run that writes credentials used that assertion, whatever
      came later on the channel. */
  lemma WrittenCredentialsUseFirstAssertion(profile: string, roleName: string, env: Collaborators, later: seq<Incoming>)
    requires ReachesLoop(profile, roleName, env)
    requires Intercept(env.events).Matched?
    ensures var env' := env.(events := env.events + later);
      Run(profile, roleName, env') == Run(profile, roleName, env)
  {
    NoLookahead(env.events, later);
  }
}

=== FILE: saml.dfy ===
/** saml.go: rendering the SAML AuthnRequest that starts the login, and
    `parseArn`, which picks the role/principal ARN pair out of the attribute
    statement of a parsed SAML response.

The XML parsing of the response (`saml.ParseEncodedResponse`), uuid
generation, the clock, deflate and base64 are not modelled: their outcomes
are inputs. */
module Saml {
  import opened GoErrors
  import opened GoText

  // ---------------------------------------------------------------------------
  // Role selection (parseArn)

  /** The two attribute names that carry role claims. */
  const MicrosoftRoleClaim: string := "http://schemas.microsoft.com/ws/2008/06/identity/claims/role"
  const AwsRoleAttribute: string := "https://aws.amazon.com/SAML/Attributes/Role"

  /** One attribute of the assertion's attribute statement, with its values
      in document order. */
  datatype Attribute = Attribute(name: string, values: seq<string>)

  /** The part of a parsed SAML response that `parseArn` reads. */
  datatype Response = Response(attributes: seq<Attribute>)

  /** `parseArn`'s three results: role ARN, principal ARN and error. */
  datatype Arns = Arns(roleArn: string, principalArn: string, err: Option<Error>)

  predicate IsRoleAttribute(a: Attribute)
  {
    a.name == MicrosoftRoleClaim || a.name == AwsRoleAttribute
  }

  /** The first attribute the outer loop does not skip; the loop breaks after
      scanning it, so no later attribute is looked at. */
  function FirstRoleAttribute(attrs: seq<Attribute>): (r: Option<nat>)
    ensures r.Some? ==> r.value < |attrs| && IsRoleAttribute(attrs[r.value])
    ensures r.Some? ==> forall j :: 0 <= j < r.value ==> !IsRoleAttribute(attrs[j])
    ensures r.None? ==> forall j :: 0 <= j < |attrs| ==> !IsRoleAttribute(attrs[j])
  {
    if |attrs| == 0 then None
    else if IsRoleAttribute(attrs[0]) then Some(0)
    else
      match FirstRoleAttribute(attrs[1..])
      case None => None
      case Some(k) => Some(k + 1)
  }

  /** Field 0 of `strings.Split(value, ",")`; it always exists. */
  function RoleField(value: string): string
  {
    Split(value, ',')[0]
  }

  /** Field 1 of `strings.Split(value, ",")`; it exists only when the value
      contains a comma, otherwise the source indexes out of range. */
  function PrincipalField(value: string): string
    requires ',' in value
  {
    Split(value, ',')[1]
  }

  /** The inner loop's break condition. */
  predicate MatchesRole(value: string, roleName: string)
  {
    HasSuffix(RoleField(value), roleName)
  }

  /** The inner loop reaches value `j` when no earlier value matched. */
  predicate Reached(values: seq<string>, roleName: string, j: nat)
    requires j <= |values|
  {
    forall k :: 0 <= k < j ==> !MatchesRole(values[k], roleName)
  }

  /** Every value the inner loop reaches has a principal field, so the scan
      does not panic. */
  predicate ScanSafe(values: seq<string>, roleName: string)
  {
    forall j :: 0 <= j < |values| && Reached(values, roleName, j) ==> ',' in values[j]
  }

  /** `saml.ParseEncodedResponse` succeeded on a response whose role scan
      does not panic. */
  predicate ParseSafe(parsed: Result<Response>, roleName: string)
  {
    parsed.Ok? ==>
      match FirstRoleAttribute(parsed.value.attributes)
      case None => true
      case Some(k) => ScanSafe(parsed.value.attributes[k].values, roleName)
  }

  /** Index of the value the inner loop stops on: the first one whose role
      field ends with `roleName`, or else the last one. */
  function StopIndex(values: seq<string>, roleName: string): (i: nat)
    requires |values| > 0
    ensures i < |values|
    ensures Reached(values, roleName, i)
    ensures MatchesRole(values[i], roleName) || i == |values| - 1
  {
    if MatchesRole(values[0], roleName) || |values| == 1 then 0
    else
      var i := 1 + StopIndex(values[1..], roleName);
      assert forall k :: 1 <= k < i ==> values[k] == values[1..][k - 1];
      i
  }

  /** The (roleArn, principalArn) pair the loops leave behind, before the
      emptiness check; ("", "") when no value was scanned. */
  function ScannedPair(attrs: seq<Attribute>, roleName: string): (string, string)
    requires ParseSafe(Ok(Response(attrs)), roleName)
  {
    match FirstRoleAttribute(attrs)
    case None => ("", "")
    case Some(k) =>
      var values := attrs[k].values;
      if |values| == 0 then ("", "")
      else
        var v := values[StopIndex(values, roleName)];
        (RoleField(v), PrincipalField(v))
  }

  /** `parseArn`, given the outcome of `saml.ParseEncodedResponse`. A missing
      or empty role or principal yields two empty strings and a nil error,
      because `errors.Wrapf` of the nil `err` in scope is nil. */
  function ParseArn(parsed: Result<Response>, roleName: string): (r: Arns)
    requires ParseSafe(parsed, roleName)
    ensures parsed.Fail? ==> r.roleArn == "" && r.principalArn == ""
    ensures parsed.Fail? ==> r.err.Some? && Cause(r.err.value) == Cause(parsed.error)
    ensures parsed.Ok? ==> r.err.None?
    ensures r.roleArn == "" <==> r.principalArn == ""
  {
    match parsed
    case Fail(e) => Arns("", "", Wrap(Some(e), "Failed to parse encoded SAML response"))
    case Ok(response) =>
      var (role, principal) := ScannedPair(response.attributes, roleName);
      if role == "" || principal == "" then
        Arns("", "", Wrap(None, "The specified role could not be found in SAML response: " + roleName))
      else Arns(role, principal, None)
  }

  /** `parseArn` on a response that parsed. */
  function Select(attrs: seq<Attribute>, roleName: string): Arns
    requires ParseSafe(Ok(Response(attrs)), roleName)
  {
    ParseArn(Ok(Response(attrs)), roleName)
  }

  /** `k` is the position of the first attribute with a role-claim name. */
  predicate FirstRoleAt(attrs: seq<Attribute>, k: nat)
  {
    k < |attrs| && IsRoleAttribute(attrs[k]) &&
    forall j :: 0 <= j < k ==> !IsRoleAttribute(attrs[j])
  }

  lemma FirstRoleAtUnique(attrs: seq<Attribute>, k: nat)
    requires FirstRoleAt(attrs, k)
    ensures FirstRoleAttribute(attrs) == Some(k)
  {
  }

  /** Without a role-claim attribute the role is "not found": empty strings
      and a nil error, not a failure. */
  lemma NoRoleAttributeNotFound(attrs: seq<Attribute>, roleName: string)
    requires forall j :: 0 <= j < |attrs| ==> !IsRoleAttribute(attrs[j])
    ensures ParseSafe(Ok(Response(attrs)), roleName)
    ensures Select(attrs, roleName) == Arns("", "", None)
  {
  }

  /** A role attribute without values is also "not found" with a nil error. */
  lemma EmptyRoleAttributeNotFound(attrs: seq<Attribute>, k: nat, roleName: string)
    requires FirstRoleAt(attrs, k) && |attrs[k].values| == 0
    ensures ParseSafe(Ok(Response(attrs)), roleName)
    ensures Select(attrs, roleName) == Arns("", "", None)
  {
    FirstRoleAtUnique(attrs, k);
  }

  /** When some value's role field ends with `roleName`, the first such value
      supplies the pair (provided both of its fields are non-empty). */
  lemma FirstSuffixMatchWins(attrs: seq<Attribute>, k: nat, i: nat, roleName: string)
    requires FirstRoleAt(attrs, k)
    requires i < |attrs[k].values| && MatchesRole(attrs[k].values[i], roleName)
    requires Reached(attrs[k].values, roleName, i)
    requires ParseSafe(Ok(Response(attrs)), roleName)
    ensures ',' in attrs[k].values[i]
    ensures var v := attrs[k].values[i];
      RoleField(v) != "" && PrincipalField(v) != "" ==>
        Select(attrs, roleName) == Arns(RoleField(v), PrincipalField(v), None)
    ensures var v := attrs[k].values[i];
      RoleField(v) == "" || PrincipalField(v) == "" ==>
        Select(attrs, roleName) == Arns("", "", None)
  {
    FirstRoleAtUnique(attrs, k);
  }

  /** When no value's role field ends with `roleName`, the pair comes from
      the last value scanned, i.e. the attribute's last value. */
  lemma NoSuffixMatchTakesLast(attrs: seq<Attribute>, k: nat, roleName: string)
    requires FirstRoleAt(attrs, k) && |attrs[k].values| > 0
    requires forall i :: 0 <= i < |attrs[k].values| ==> !MatchesRole(attrs[k].values[i], roleName)
    requires ParseSafe(Ok(Response(attrs)), roleName)
    ensures ',' in Last(attrs[k].values)
    ensures var v := Last(attrs[k].values);
      RoleField(v) != "" && PrincipalField(v) != "" ==>
        Select(attrs, roleName) == Arns(RoleField(v), PrincipalField(v), None)
    ensures var v := Last(attrs[k].values);
      RoleField(v) == "" || PrincipalField(v) == "" ==>
        Select(attrs, roleName) == Arns("", "", None)
  {
    FirstRoleAtUnique(attrs, k);
    var values := attrs[k].values;
    assert Reached(values, roleName, |values| - 1);
  }

  function Last<T>(s: seq<T>): T
    requires |s| > 0
  {
    s[|s| - 1]
  }

  /** Whatever `parseArn` finds is a split value of the first role-claim
      attribute, and both of its fields are non-empty. */
  lemma FoundPairComesFromFirstRoleAttribute(attrs: seq<Attribute>, roleName: string)
    requires ParseSafe(Ok(Response(attrs)), roleName)
    requires Select(attrs, roleName).roleArn != ""
    ensures Select(attrs, roleName).principalArn != ""
    ensures exists k: nat, i: nat ::
      (FirstRoleAt(attrs, k) && i < |attrs[k].values| &&
       ',' in attrs[k].values[i] &&
       Select(attrs, roleName).roleArn == RoleField(attrs[k].values[i]) &&
       Select(attrs, roleName).principalArn == PrincipalField(attrs[k].values[i]))
  {
    var k := FirstRoleAttribute(attrs).value;
    var values := attrs[k].values;
    var i := StopIndex(values, roleName);
    assert FirstRoleAt(attrs, k);
  }

  /** Attributes with other names never influence the result: inserting one
      anywhere leaves `parseArn` unchanged. */
  lemma {:induction false} OtherAttributesIgnored(attrs: seq<Attribute>, at: nat, other: Attribute, roleName: string)
    requires at <= |attrs| && !IsRoleAttribute(other)
    requires ParseSafe(Ok(Response(attrs)), roleName)
    ensures ParseSafe(Ok(Response(attrs[..at] + [other] + attrs[at..])), roleName)
    ensures Select(attrs[..at] + [other] + attrs[at..], roleName) == Select(attrs, roleName)
  {
    var attrs' := attrs[..at] + [other] + attrs[at..];
    match FirstRoleAttribute(attrs)
    case None =>
      assert forall j :: 0 <= j < |attrs'| ==> !IsRoleAttribute(attrs'[j]) by {
        forall j | 0 <= j < |attrs'|
          ensures !IsRoleAttribute(attrs'[j])
        {
          if j < at {
            assert attrs'[j] == attrs[j];
          } else if at < j {
            assert attrs'[j] == attrs[j - 1];
          }
        }
      }
    case Some(k) =>
      var k' := if k < at then k else k + 1;
      assert attrs'[k'] == attrs[k];
      assert FirstRoleAt(attrs', k') by {
        forall j | 0 <= j < k'
          ensures !IsRoleAttribute(attrs'[j])
        {
          if j < at {
            assert attrs'[j] == attrs[j];
          } else if at < j {
            assert attrs'[j] == attrs[j - 1];
          }
        }
      }
      FirstRoleAtUnique(attrs', k');
  }

  /** Only the first role-claim attribute is scanned: anything appended after
      it, role claims included, is never consulted. */
  lemma LaterAttributesIgnored(attrs: seq<Attribute>, k: nat, more: seq<Attribute>, roleName: string)
    requires FirstRoleAt(attrs, k)
    requires ParseSafe(Ok(Response(attrs)), roleName)
    ensures ParseSafe(Ok(Response(attrs + more)), roleName)
    ensures Select(attrs + more, roleName) == Select(attrs, roleName)
  {
    var attrs' := attrs + more;
    assert attrs'[k] == attrs[k];
    assert FirstRoleAt(attrs', k) by {
      assert forall j :: 0 <= j < k ==> attrs'[j] == attrs[j];
    }
    FirstRoleAtUnique(attrs, k);
    FirstRoleAtUnique(attrs', k);
  }

  /** A value `role,principal[,extra...]` splits into exactly that role and
      principal; further comma-separated fields are ignored. */
  lemma ValueFields(role: string, principal: string, extra: Option<string>)
    requires ',' !in role && ',' !in principal
    ensures var v := ValueText(role, principal, extra);
      ',' in v && RoleField(v) == role && PrincipalField(v) == principal
  {
    var tail := match extra case None => principal case Some(x) => principal + [','] + x;
    var v := role + [','] + tail;
    assert v == ValueText(role, principal, extra);
    assert v[|role|] == ',';
    SplitAtFirst(role, ',', tail);
    match extra {
      case None =>
        assert Split(principal, ',') == [principal];
      case Some(x) =>
        SplitAtFirst(principal, ',', x);
    }
    assert Split(tail, ',')[0] == principal;
  }

  function ValueText(role: string, principal: string, extra: Option<string>): string
  {
    match extra
    case None => role + [','] + principal
    case Some(x) => role + [','] + principal + [','] + x
  }

  // ---------------------------------------------------------------------------
  // The AuthnRequest (createSAMLRequest)

  /** The assertion consumer endpoint the request names; the interceptor
      watches for the POST to the same URL. */
  const AcsUrl: string := "https://signin.aws.amazon.com/saml"

  // The fixed text of the request template between the substituted values;
  // each substituted value is closed by a delimiter character ('"' or '<')
  // that the next piece follows.
  const Head: string := "<samlp:AuthnRequest xmlns=\"urn:oasis:names:tc:SAML:2.0:metadata\" ID=\""
  const AfterId: string := " Version=\"2.0\" IssueInstant=\""
  const AfterInstant: string := " IsPassive=\"false\" AssertionConsumerServiceURL=\""
  const AfterAcs: string := " xmlns:samlp=\"urn:oasis:names:tc:SAML:2.0:protocol\">\n\t<Issuer xmlns=\"urn:oasis:names:tc:SAML:2.0:assertion\">"
  const Tail: string := "/Issuer>\n\t<samlp:NameIDPolicy Format=\"urn:oasis:names:tc:SAML:1.1:nameid-format:emailAddress\"></samlp:NameIDPolicy>\n\t</samlp:AuthnRequest>"

  /** The request template with the uuid (after the literal "id"), the
      RFC 3339 issue instant and the application id filled in. */
  function RenderAuthnRequest(uuid: string, issueInstant: string, appId: string): (xml: string)
    ensures |Head| <= |xml| && xml[..|Head|] == Head
    ensures HasSuffix(xml, Tail)
  {
    // built from the right, the reverse of the order in which a reader consumes the text
    var issuer := appId + ['<'] + Tail;
    var acs := AcsUrl + ['"'] + (AfterAcs + issuer);
    var instant := issueInstant + ['"'] + (AfterInstant + acs);
    var id := ("id" + uuid) + ['"'] + (AfterId + instant);
    SuffixKept(appId + ['<'], Tail, Tail);
    SuffixKept(AfterAcs, issuer, Tail);
    SuffixKept(AcsUrl + ['"'], AfterAcs + issuer, Tail);
    SuffixKept(AfterInstant, acs, Tail);
    SuffixKept(issueInstant + ['"'], AfterInstant + acs, Tail);
    SuffixKept(AfterId, instant, Tail);
    SuffixKept(("id" + uuid) + ['"'], AfterId + instant, Tail);
    SuffixKept(Head, id, Tail);
    Head + id
  }

  /** Text put in front keeps a suffix. */
  lemma SuffixKept(front: string, s: string, suffix: string)
    requires s == suffix || HasSuffix(s, suffix)
    ensures HasSuffix(front + s, suffix)
  {
    assert (front + s)[|front + s| - |suffix|..] == s[|s| - |suffix|..];
  }

  /** The attributes of an AuthnRequest a reader of the XML sees. */
  datatype AuthnFields = AuthnFields(id: string, issueInstant: string, acsUrl: string, issuer: string)

  /** `s` with the literal `lit` removed from its front. */
  function Expect(s: string, lit: string): Option<string>
  {
    if lit <= s then Some(s[|lit|..]) else None
  }

  /** The text of `s` up to the first `stop`, and the rest after it. */
  function Token(s: string, stop: char): Option<(string, string)>
  {
    if stop in s then
      var i := IndexOf(s, stop);
      Some((s[..i], s[i + 1..]))
    else None
  }

  /** The literal `lit`, then a value closed by `stop`: the value and the
      rest of the text after `stop`. */
  function Field(s: string, lit: string, stop: char): Option<(string, string)>
  {
    var r :- Expect(s, lit);
    Token(r, stop)
  }

  /** Reads the ID, IssueInstant, AssertionConsumerServiceURL and Issuer back
      out of text shaped like the template: the reference against which the
      rendering is checked. */
  function ReadAuthnRequest(xml: string): Option<AuthnFields>
  {
    var (id, r1) :- Field(xml, Head, '"');
    var (instant, r2) :- Field(r1, AfterId, '"');
    var (acs, r3) :- Field(r2, AfterInstant, '"');
    var (issuer, r4) :- Field(r3, AfterAcs, '<');
    if r4 == Tail then Some(AuthnFields(id, instant, acs, issuer)) else None
  }

  lemma ExpectLiteral(lit: string, rest: string)
    ensures Expect(lit + rest, lit) == Some(rest)
  {
    assert (lit + rest)[..|lit|] == lit;
  }

  lemma TokenUntil(x: string, stop: char, rest: string)
    requires stop !in x
    ensures Token(x + [stop] + rest, stop) == Some((x, rest))
  {
    IndexOfAfter(x, stop, rest);
    assert (x + [stop] + rest)[..|x|] == x;
    assert (x + [stop] + rest)[|x| + 1..] == rest;
  }

  /** Reading one field of rendered text gives back the value put there. */
  lemma FieldOfRendered(lit: string, value: string, stop: char, rest: string)
    requires stop !in value
    ensures Field(lit + (value + [stop] + rest), lit, stop) == Some((value, rest))
  {
    ExpectLiteral(lit, value + [stop] + rest);
    TokenUntil(value, stop, rest);
  }

  lemma NoQuoteInAcsUrl()
    ensures '"' !in AcsUrl
  {
  }

  lemma NoQuoteInId(uuid: string)
    requires '"' !in uuid
    ensures '"' !in "id" + uuid
  {
    var id := "id" + uuid;
    assert id[0] == 'i' && id[1] == 'd' && id[2..] == uuid;
  }

  /** The rendered request carries ID "id" + uuid, the given IssueInstant,
      the fixed assertion consumer URL and the application id as Issuer,
      whenever the substituted values do not contain the delimiters that end
      them (the template does no XML escaping). */
  lemma RenderedRequestFields(uuid: string, issueInstant: string, appId: string)
    requires '"' !in uuid && '"' !in issueInstant && '<' !in appId
    ensures ReadAuthnRequest(RenderAuthnRequest(uuid, issueInstant, appId))
      == Some(AuthnFields("id" + uuid, issueInstant, AcsUrl, appId))
  {
    NoQuoteInId(uuid);
    NoQuoteInAcsUrl();
    var r4 := Tail;
    var r3 := AfterAcs + (appId + ['<'] + r4);
    var r2 := AfterInstant + (AcsUrl + ['"'] + r3);
    var r1 := AfterId + (issueInstant + ['"'] + r2);
    FieldOfRendered(Head, "id" + uuid, '"', r1);
    FieldOfRendered(AfterId, issueInstant, '"', r2);
    FieldOfRendered(AfterInstant, AcsUrl, '"', r3);
    FieldOfRendered(AfterAcs, appId, '<', r4);
  }

  /** `createSAMLRequest`: render the template, deflate it at level 9 and
      base64-encode the compressed bytes. The uuid, the formatted clock and
      the deflate and base64 steps are inputs. */
  function CreateSAMLRequest(uuid: Result<string>, issueInstant: string, appId: string,
                             deflate: string -> Result<seq<bv8>>, base64: seq<bv8> -> string): (r: Result<string>)
    ensures r.Ok? <==> uuid.Ok? && deflate(RenderAuthnRequest(uuid.value, issueInstant, appId)).Ok?
    ensures uuid.Fail? ==> r == Fail(Wrapped("Failed to generate uuid", uuid.error))
    ensures r.Ok? ==> exists compressed ::
      deflate(RenderAuthnRequest(uuid.value, issueInstant, appId)) == Ok(compressed) && r.value == base64(compressed)
  {
    match uuid
    case Fail(e) => Fail(Wrapped("Failed to generate uuid", e))
    case Ok(id) =>
      match deflate(RenderAuthnRequest(id, issueInstant, appId))
      case Fail(e) => Fail(Wrapped("Failed to deflate SAML request", e))
      case Ok(compressed) => Ok(base64(compressed))
  }
}
